=== FILE: README.md ===
# playlist-import, modelled in Dafny

`playlist-import.py` is a one-shot script. It copies the playlists a Spotify user owns to YouTube Music. It lists the user's own playlists. For each one it re-reads the YouTube Music library and skips the playlist if a playlist of the same name (ignoring case) is already there. Otherwise it collects the playlist's tracks page by page and searches YouTube Music for each track by "name artist", keeping the top hit. It then creates the destination playlist, retrying once under an ASCII-only name, and adds the matched videos in batches of 100.

This project models that decision logic as pure Dafny functions over the services' answers:

- `Catalog`: the entities (source playlist, track item with an absent marker, page, destination playlist, search/create answers, failure kinds).
- `Enumerator`: the ownership filter and the fatal enumeration failure.
- `DuplicateGuard`: the listing fallback and the case-insensitive name test.
- `Pagination`: collecting tracks across pages, with the `while next` loop as a method.
- `Resolver`: the per-track loop. Absent tracks are skipped, a top hit goes to the matched ids, and an empty or failed search goes to `not_found`. Reference definitions characterise the output by track positions.
- `Report`: truncation of the unmatched-track report.
- `Builder`: the sanitised name, the two-attempt creation, batching (function and loop) and the add calls.
- `Transfer`: one playlist's transfer, composed from the above.
- `Orchestrator`: the main loop over playlists.
- `Text`, `Seqs`, `Wrappers`: shared helpers.

Every service call is an input value:
- The track pages are a sequence of answers. A `next` call with no answer left is a call that raised.
- The search is a function from track position to answer.
- The two create calls have one answer each.
- The add calls are described by the index of the first call that raises, if any.

Exceptions become `Result` values at the script's own try/except boundaries.

Points where the script's behaviour is easy to misread:
- The script does not retry searches: any search error marks the track unmatched.
- The script reads `artists[0]` outside the search's `try` (lines 73-74). A present track with no artist therefore aborts that playlist's transfer instead of being recorded as unmatched. The model returns `MissingArtist` for it.
- Only the first page of the user's playlist listing is read (line 33). The enumerator filters just that page.
- A failed library listing degrades to an empty one (lines 43-46), so the playlist is then attempted.
- The duplicate check compares names only. A playlist created under its sanitised name does not guard a later playlist with the same original name (`Orchestrator.SanitizedCreationNotGuarded`).

## Model

| member | source | states |
|---|---|---|
| Text.AsciiOnly | playlist-import.py:105 | the kept characters are exactly the ASCII ones of the name, never more of them than the name has |
| Text.AsciiOnlyConcat | playlist-import.py:105 | the ASCII filter distributes over concatenation, so kept characters keep their original order |
| Text.AsciiOnlyKeepsAscii | playlist-import.py:105 | an all-ASCII name passes through the filter unchanged |
| Text.AsciiOnlyDropsNonAscii | playlist-import.py:105 | a name without ASCII characters filters to the empty string |
| Text.StripLeft | playlist-import.py:106 | the suffix after the leading whitespace, which starts with a non-space character if it is non-empty |
| Text.StripRight | playlist-import.py:106 | the prefix before the trailing whitespace, which ends with a non-space character if it is non-empty |
| Text.Strip | playlist-import.py:106 | `strip()` leaves nothing exactly when every character is whitespace, and otherwise starts and ends with a non-space character |
| Text.LowerCharIdentifies | playlist-import.py:50 | two characters fold together iff they are equal or an upper/lower-case pair of ASCII letters |
| Text.LowerIsFolded | playlist-import.py:50 | a folded name contains no upper-case letter, and folding it again changes nothing |
| Text.SameNameIsEquivalence | playlist-import.py:50 | "the same name ignoring case" is reflexive, symmetric and transitive, and a name matches its folded form |
| Enumerator.OwnedPlaylists | playlist-import.py:35 | a playlist is kept iff it is listed and its owner id equals the user id |
| Enumerator.OwnedPlaylistsConcat | playlist-import.py:35 | the filter is order-preserving: filtering a concatenation concatenates the filtered parts |
| Enumerator.OwnedPlaylistsAllOwned | playlist-import.py:35 | a listing of only the user's playlists is returned unchanged |
| Enumerator.GetOwnedPlaylists | playlist-import.py:28-36 | a failed current-user or listing call ends the run as an authentication failure; otherwise exactly the owned playlists of the one listing page |
| DuplicateGuard.ExistingPlaylists | playlist-import.py:39-46 | a raised or empty listing becomes the empty list, otherwise the listing itself |
| DuplicateGuard.PlaylistExists | playlist-import.py:49-50 | true iff some listed title equals the name after case folding |
| DuplicateGuard.PlaylistExistsIgnoresCase | playlist-import.py:49-50 | the test gives the same answer for any two names that match ignoring case, including a name and its folded form |
| DuplicateGuard.FailedListingNeverSkips | playlist-import.py:43-50 | a failed listing never makes the name test succeed |
| DuplicateGuard.RoadTripIsGuarded | playlist-import.py:50 | "ROAD TRIP" in the library guards "Road Trip" |
| Pagination.LastPage | playlist-import.py:59 | the loop's exit page: the first page without a next link, all before it have one |
| Pagination.Collect | playlist-import.py:54-61 | succeeds iff some answered page announces no next page, and then yields the items of all pages up to it concatenated in order; otherwise a fetch failure |
| Pagination.FetchAllTracks | playlist-import.py:54-61 | the fetch-while-next loop produces exactly the collected tracks, or the fetch failure |
| Pagination.CollectStopsAtLastPage | playlist-import.py:59-61 | answers after the last page are never consumed |
| Resolver.FirstHit | playlist-import.py:80-85 | a search yields an id iff it returned a non-empty hit list, and then the top-ranked one |
| Resolver.Query | playlist-import.py:80 | the search text is the track name, one space, then the primary artist |
| Resolver.Description | playlist-import.py:85 | the unmatched entry is the track name, " - ", then the primary artist |
| Resolver.Resolve | playlist-import.py:69-88 | the resolution succeeds iff every present track has an artist; then the k-th matched id is the top hit of the k-th matched track, the k-th unmatched entry is "name - artist" of the k-th unmatched track, and matched plus unmatched, like the query count, equals the number of present tracks |
| Resolver.ResolveTracks | playlist-import.py:69-88 | the track loop succeeds iff every present track has an artist, and then returns the reference matched ids, unmatched descriptions and issued queries |
| Resolver.FoundPositions | playlist-import.py:79-83 | the positions of matched tracks: increasing, each a present track with a top hit, and every such position included |
| Resolver.UnmatchedPositions | playlist-import.py:84-88 | the positions of unmatched tracks: increasing, each a present track with an empty or failed search, and every such position included |
| Resolver.VideoIdsAreTopHits | playlist-import.py:79-83 | the k-th matched id is the top hit of the k-th matched track, in track order |
| Resolver.NotFoundDescribesUnmatched | playlist-import.py:84-88 | the k-th unmatched entry is "name - artist" of the k-th unmatched track, in track order |
| Resolver.PartitionCount | playlist-import.py:69-88 | matched plus unmatched equals the number of present tracks, and exactly one search is issued per present track |
| Resolver.ResolutionDependsOnlyOnTopHits | playlist-import.py:69-88 | the outcome depends only on each present track's top hit: answers at absent positions are never read |
| Resolver.SearchErrorCountsAsEmpty | playlist-import.py:86-88 | a search that raised gives the same outcome as one that found nothing |
| Resolver.VideoIdsSameVerdicts | playlist-import.py:79-83 | matched ids agree for searches with the same top hits on present tracks |
| Resolver.NotFoundSameVerdicts | playlist-import.py:84-88 | unmatched entries agree for searches with the same top hits on present tracks |
| Report.Summarize | playlist-import.py:92-97 | no report without unmatched tracks; otherwise the count, the first min(5, n) entries, and a "more" count of n - 5 present iff n > 5 |
| Builder.SanitizedName | playlist-import.py:105-107 | the retry name is the ASCII subsequence of the name, or "Imported Playlist" when that is blank; it is never blank and always ASCII |
| Builder.SanitizedNameFixedPoints | playlist-import.py:105-107 | an ASCII non-blank name is its own sanitised name, and sanitising is idempotent |
| Builder.CreatePlaylist | playlist-import.py:100-108 | the first call uses the original name; a second call, under the sanitised name, happens iff the first failed; creation fails iff both failed |
| Builder.Batches | playlist-import.py:111-115 | the batches concatenate back to the ids; each has 1 to 100 ids and all but the last exactly 100 |
| Builder.BatchCount | playlist-import.py:113 | there are ceil(n/100) batches and the last holds the remainder |
| Builder.BatchesUnfold | playlist-import.py:113-114 | each loop step slices off the next 100 ids, or all that are left |
| Builder.BatchIds | playlist-import.py:111-115 | the range-by-100 loop produces exactly the batches |
| Builder.TwoHundredFiftyIds | playlist-import.py:113-114 | 250 ids give batches of 100, 100 and 50 |
| Builder.AddBatches | playlist-import.py:113-115 | the add calls are the batches in order up to and including the first that raises; success iff none raised |
| Transfer.TransferPlaylist | playlist-import.py:53-118 | a fetch or artist failure ends the transfer before anything is created; otherwise the report is the unmatched summary, the create calls are the creation's calls, and the adds are the batch calls up to the first that raises (none if creation failed); the result is the created playlist iff creation and every add succeeded, else the creation or add failure; on success the added ids are exactly the matched ids in order |
| Transfer.TransferSucceedsIff | playlist-import.py:53-118 | a transfer succeeds iff tracks are collected and resolved, one create call succeeds and no add call raises; then it returns the created playlist id and added exactly the matched ids in order |
| Transfer.EmptyPlaylistStillCreated | playlist-import.py:99-118 | with no matched track the playlist is still created and no add call is made |
| Transfer.AddFailureKeepsEarlierBatches | playlist-import.py:110-118 | a failing add call fails the transfer after the earlier batches were added, with no rollback |
| Transfer.RoadTripResolved | playlist-import.py:69-88 | the three "Road Trip" tracks, the second deleted, resolve to the two top hits in order with nothing unmatched |
| Transfer.RoadTrip | playlist-import.py:53-118 | three tracks, one deleted: created under its own name, the two found ids in one call, nothing unmatched |
| Transfer.UnsupportedName | playlist-import.py:100-108 | a name of only non-ASCII characters is retried as "Imported Playlist" and the retry's playlist is the result |
| Orchestrator.ProcessPlaylist | playlist-import.py:125-139 | a playlist is skipped iff the fresh listing holds its name ignoring case; otherwise it is transferred |
| Orchestrator.SkipMeansNoCreation | playlist-import.py:128-132 | a name present in a successful listing is skipped, so no create call is made for it |
| Orchestrator.FailedListingMeansAttempt | playlist-import.py:129-136 | when the listing failed the playlist is always attempted |
| Orchestrator.CreatedTitle | playlist-import.py:100-108 | a created playlist's title is the last create call's title |
| Orchestrator.CreatedTitleIff | playlist-import.py:100-108 | a step created a playlist iff it was attempted, its tracks were collected and resolved, and one of the two create calls succeeded |
| Orchestrator.CreatedUnderNameOrSanitized | playlist-import.py:100-108 | a created playlist has either the source name or its sanitised name |
| Orchestrator.RepeatedNameSkipped | playlist-import.py:125-132 | if later listings show earlier creations, a playlist created under its own name causes every later playlist of the same name, ignoring case, to be skipped |
| Orchestrator.CafeSanitizesToCaf | playlist-import.py:105-107 | "Café" sanitises to "Caf" |
| Orchestrator.CafeTransfer | playlist-import.py:100-108 | when the first create call fails, "Café" is retried as "Caf", and the retry's playlist is returned |
| Orchestrator.CafeCreatedAsCaf | playlist-import.py:100-139 | a "Café" playlist that is not in the listing, whose tracks are collected and resolved, is created as "Caf" when its first create call raises and the retry succeeds |
| Orchestrator.CafeKeepsNameWhenFirstCreateSucceeds | playlist-import.py:100-139 | the same playlist is created as "Café" when its first create call succeeds |
| Orchestrator.CafNotGuardingCafe | playlist-import.py:50 | "Caf" in the library does not guard "Café" |
| Orchestrator.SanitizedCreationNotGuarded | playlist-import.py:100-132 | two "Café" playlists with consistent listings, each with no tracks, a first create call that raises and a retry that succeeds, are both created as "Caf": the guard does not see sanitised names |
| Orchestrator.Run | playlist-import.py:120-139 | the run fails only if enumeration fails; otherwise it has one step per owned playlist, each decided from that playlist's own answers, so a failed transfer never stops the loop |

## Left out

- Client construction, OAuth and browser-cookie authentication, and `.env` loading (lines 1-26) are configuration I/O. An invalid session appears only as a failed enumeration call.
- The search, create, add and listing calls are replaced by their answers. Network behaviour, rate limits and timeouts are not modelled.
- Pagination is bounded by the answers given. A service that announces a next page forever is not modelled.
- Text.Lower: folds only the ASCII letters A-Z, because Python's Unicode `str.lower()` tables are out of scope. DuplicateGuard.PlaylistExists inherits this.
- Orchestrator.Run: each step's destination listing is an independent input, not tied to the playlists created at earlier steps. So "at most one playlist per name per run" is not a promise of `Run`. It is proved separately, in `Orchestrator.RepeatedNameSkipped`, for listings that show earlier creations and for playlists created under their own name.
- Text.IsBlank uses Python's ASCII whitespace set. This is exact for the sanitised name, which is ASCII by construction.
- Console output, progress lines and emoji are left out. Of the report only its truncation is kept: the count, the first five entries and the "more" number.
- Exceptions are `Result` values. Missing dictionary keys (`KeyError`) in the services' answers are not modelled; an answer always has the fields the script reads.
- Search query text is recorded (`Resolution.queries`), but the search answer is looked up by track position rather than by query.

=== FILE: builder.dfy ===
/** The playlist builder: creating the destination playlist (with one retry
    under a sanitised name) and adding the matched ids in batches. */
module Builder {
  import opened Wrappers
  import opened Catalog
  import opened Text
  import Seqs

  const FallbackName: string := "Imported Playlist"
  const PlaylistDescription: string := "Imported from Spotify"
  /** The most ids one add-items call takes. */
  const BatchLimit: nat := 100

  /** The retry name: the ASCII characters of `name`, or the fallback name
      when stripping whitespace from those leaves nothing. */
  function SanitizedName(name: string): (r: string)
    ensures !IsBlank(AsciiOnly(name)) ==> r == AsciiOnly(name)
    ensures IsBlank(AsciiOnly(name)) ==> r == FallbackName
    ensures !IsBlank(r)
    ensures forall i :: 0 <= i < |r| ==> IsAscii(r[i])
  {
    var kept := AsciiOnly(name);
    if Strip(kept) == [] then
      assert !IsSpace(FallbackName[0]);
      FallbackName
    else kept
  }

  /** A name that is already ASCII and not blank survives sanitising as is,
      and sanitising twice changes nothing. */
  lemma SanitizedNameFixedPoints(name: string)
    ensures (forall i :: 0 <= i < |name| ==> IsAscii(name[i])) && !IsBlank(name) ==> SanitizedName(name) == name
    ensures SanitizedName(SanitizedName(name)) == SanitizedName(name)
  {
    if forall i :: 0 <= i < |name| ==> IsAscii(name[i]) {
      AsciiOnlyKeepsAscii(name);
    }
    AsciiOnlyKeepsAscii(SanitizedName(name));
  }

  /** One create-playlist call: the title and description sent. */
  datatype CreateCall = CreateCall(title: string, description: string)

  /** The create calls made and the playlist obtained. */
  datatype Creation = Creation(calls: seq<CreateCall>, result: Result<PlaylistId, Failure>)

  /** Create under `name`; if that raises, create once more under the
      sanitised name; a second failure is the transfer's failure. `first`
      and `second` are the service's answers to the two calls. */
  function CreatePlaylist(name: string, first: CreateResponse, second: CreateResponse): (c: Creation)
    ensures 1 <= |c.calls| <= 2
    ensures c.calls[0] == CreateCall(name, PlaylistDescription)
    ensures |c.calls| == 2 <==> first.CreateFailed?
    ensures |c.calls| == 2 ==> c.calls[1] == CreateCall(SanitizedName(name), PlaylistDescription)
    ensures first.Created? ==> c.result == Ok(first.id)
    ensures first.CreateFailed? && second.Created? ==> c.result == Ok(second.id)
    ensures c.result.Err? <==> first.CreateFailed? && second.CreateFailed?
    ensures c.result.Err? ==> c.result.error == CreationFailed
  {
    match first
    case Created(id) => Creation([CreateCall(name, PlaylistDescription)], Ok(id))
    case CreateFailed =>
      var retry := CreateCall(SanitizedName(name), PlaylistDescription);
      match second
      case Created(id) => Creation([CreateCall(name, PlaylistDescription), retry], Ok(id))
      case CreateFailed => Creation([CreateCall(name, PlaylistDescription), retry], Err(CreationFailed))
  }

  /** The batches of `range(0, len(ids), 100)`: consecutive slices of at
      most `BatchLimit` ids. */
  function Batches(ids: seq<VideoId>): (r: seq<seq<VideoId>>)
    ensures Seqs.Flatten(r) == ids
    ensures forall k :: 0 <= k < |r| ==> 1 <= |r[k]| <= BatchLimit
    ensures forall k :: 0 <= k < |r| - 1 ==> |r[k]| == BatchLimit
    decreases |ids|
  {
    if |ids| == 0 then []
    else if |ids| <= BatchLimit then [ids]
    else
      var rest := Batches(ids[BatchLimit..]);
      assert ids == ids[..BatchLimit] + ids[BatchLimit..];
      [ids[..BatchLimit]] + rest
  }

  /** There are ceil(n / 100) batches and the last one holds the remainder. */
  lemma {:induction false} BatchCount(ids: seq<VideoId>)
    ensures |Batches(ids)| == (|ids| + BatchLimit - 1) / BatchLimit
    ensures |Batches(ids)| > 0 ==> |Batches(ids)[|Batches(ids)| - 1]| == |ids| - BatchLimit * (|Batches(ids)| - 1)
    decreases |ids|
  {
    if |ids| > BatchLimit {
      BatchCount(ids[BatchLimit..]);
    }
  }

  /** One step of the batching loop: from start index `i`, the next batch is
      the following `BatchLimit` ids (or all that are left), and the rest
      follows it. */
  lemma BatchesUnfold(ids: seq<VideoId>, i: nat, end: nat)
    requires i < |ids|
    requires end == if i + BatchLimit < |ids| then i + BatchLimit else |ids|
    ensures Batches(ids[i..]) == [ids[i..end]] + Batches(ids[end..])
  {
    var rest := ids[i..];
    if end == |ids| {
      assert rest == ids[i..end];
      assert ids[end..] == [];
    } else {
      assert rest[..BatchLimit] == ids[i..end];
      assert rest[BatchLimit..] == ids[end..];
    }
  }

  /** The batching loop, stepping the start index by `BatchLimit`. */
  method BatchIds(ids: seq<VideoId>) returns (batches: seq<seq<VideoId>>)
    ensures batches == Batches(ids)
  {
    batches := [];
    var i := 0;
    while i < |ids|
      invariant 0 <= i <= |ids|
      invariant batches + Batches(ids[i..]) == Batches(ids)
      decreases |ids| - i
    {
      var end := if i + BatchLimit < |ids| then i + BatchLimit else |ids|;
      var batch := ids[i..end];
      BatchesUnfold(ids, i, end);
      assert (batches + [batch]) + Batches(ids[end..]) == batches + ([batch] + Batches(ids[end..]));
      batches := batches + [batch];
      i := end;
    }
    assert ids[i..] == [];
  }

  /** 250 matched ids go out as three calls of 100, 100 and 50. */
  lemma TwoHundredFiftyIds(ids: seq<VideoId>)
    requires |ids| == 250
    ensures |Batches(ids)| == 3
    ensures |Batches(ids)[0]| == 100 && |Batches(ids)[1]| == 100 && |Batches(ids)[2]| == 50
  {
    BatchCount(ids);
  }

  /** The add-items calls made and whether all of them went through. */
  datatype Adding = Adding(calls: seq<seq<VideoId>>, result: Result<(), Failure>)

  /** Add the batches one call each, in order; the first call that raises
      (`failsAt`, counting calls from 0) ends the adding, leaving earlier
      batches in place. */
  function AddBatches(batches: seq<seq<VideoId>>, failsAt: Option<nat>): (a: Adding)
    ensures |a.calls| <= |batches| && a.calls == batches[..|a.calls|]
    ensures a.result.Ok? <==> failsAt.None? || failsAt.value >= |batches|
    ensures a.result.Ok? ==> a.calls == batches
    ensures a.result.Err? ==> a.result.error == AddFailed && |a.calls| == failsAt.value + 1
  {
    match failsAt
    case Some(k) =>
      if k < |batches| then Adding(batches[..k + 1], Err(AddFailed))
      else Adding(batches, Ok(()))
    case None => Adding(batches, Ok(()))
  }
}

=== FILE: catalog.dfy ===
/** The entities the script reads from and writes to the two services. */
module Catalog {

  type UserId = string
  type VideoId = string
  type PlaylistId = string

  /** A playlist in the source library: identifier, display name, owner. */
  datatype SourcePlaylist = SourcePlaylist(id: string, name: string, owner: UserId)

  /** One entry of a source playlist's track listing. `Absent` is the
      null track the source service returns for deleted or unavailable
      items; a present track carries its name and its artist names. */
  datatype TrackItem = Absent | Present(name: string, artists: seq<string>)

  /** One page of a track listing and whether a `next` page is announced. */
  datatype Page = Page(items: seq<TrackItem>, hasNext: bool)

  /** A playlist in the destination library; only its title is read. */
  datatype DestPlaylist = DestPlaylist(title: string)

  /** The answer to one song search: an error, or the ranked hits' ids. */
  datatype SearchResponse = SearchFailed | Hits(ids: seq<VideoId>)

  /** The answer to one create-playlist call. */
  datatype CreateResponse = Created(id: PlaylistId) | CreateFailed

  /** Why a whole run or one playlist's transfer stops. */
  datatype Failure =
    | AuthFailed          // the current-user or playlist-listing call raised
    | FetchFailed         // fetching a page of tracks raised
    | MissingArtist       // a present track has no artist (index error)
    | CreationFailed      // both create attempts raised
    | AddFailed           // an add-items call raised
}

=== FILE: enumerator.dfy ===
/** Listing the source playlists the current user owns. */
module Enumerator {
  import opened Wrappers
  import opened Catalog

  /** The playlists of one listing page whose owner is `user`. */
  function OwnedPlaylists(user: UserId, listed: seq<SourcePlaylist>): (r: seq<SourcePlaylist>)
    ensures |r| <= |listed|
    ensures forall p :: p in r <==> p in listed && p.owner == user
  {
    if |listed| == 0 then []
    else (if listed[0].owner == user then [listed[0]] else []) + OwnedPlaylists(user, listed[1..])
  }

  /** Order preservation: filtering a concatenation filters each part and
      keeps them in sequence. */
  lemma {:induction false} OwnedPlaylistsConcat(user: UserId, a: seq<SourcePlaylist>, b: seq<SourcePlaylist>)
    ensures OwnedPlaylists(user, a + b) == OwnedPlaylists(user, a) + OwnedPlaylists(user, b)
  {
    if |a| == 0 {
      assert a + b == b;
    } else {
      assert (a + b)[0] == a[0];
      assert (a + b)[1..] == a[1..] + b;
      OwnedPlaylistsConcat(user, a[1..], b);
    }
  }

  /** A listing of the user's own playlists passes through unchanged. */
  lemma {:induction false} OwnedPlaylistsAllOwned(user: UserId, listed: seq<SourcePlaylist>)
    requires forall i :: 0 <= i < |listed| ==> listed[i].owner == user
    ensures OwnedPlaylists(user, listed) == listed
  {
    if |listed| > 0 {
      OwnedPlaylistsAllOwned(user, listed[1..]);
    }
  }

  /** The enumerator: the current-user call and the single (unpaginated)
      listing call both raise on an invalid session, which ends the run. */
  function GetOwnedPlaylists(currentUser: Option<UserId>, listing: Option<seq<SourcePlaylist>>)
    : (r: Result<seq<SourcePlaylist>, Failure>)
    ensures r.Err? <==> currentUser.None? || listing.None?
    ensures r.Err? ==> r.error == AuthFailed
    ensures r.Ok? ==> r.value == OwnedPlaylists(currentUser.value, listing.value)
    ensures r.Ok? ==> forall p :: p in r.value <==> p in listing.value && p.owner == currentUser.value
  {
    match currentUser
    case None => Err(AuthFailed)
    case Some(user) =>
      match listing
      case None => Err(AuthFailed)
      case Some(listed) => Ok(OwnedPlaylists(user, listed))
  }
}

=== FILE: guard.dfy ===
/** The duplicate guard: the destination listing with its failure fallback,
    and the case-insensitive name test. */
module DuplicateGuard {
  import opened Wrappers
  import opened Catalog
  import opened Text

  /** What the destination library listing call produced: it raised, it
      returned nothing (`None`), or it returned a list. */
  datatype ListingResponse = ListingFailed | Listed(playlists: Option<seq<DestPlaylist>>)

  /** A failed or empty listing degrades to the empty list. */
  function ExistingPlaylists(response: ListingResponse): (r: seq<DestPlaylist>)
    ensures response.ListingFailed? ==> r == []
    ensures response.Listed? && response.playlists.None? ==> r == []
    ensures response.Listed? && response.playlists.Some? ==> r == response.playlists.value
  {
    match response
    case ListingFailed => []
    case Listed(None) => []
    case Listed(Some(ps)) => ps
  }

  /** Some listed playlist's title equals `name` ignoring case. */
  function PlaylistExists(name: string, existing: seq<DestPlaylist>): (r: bool)
    ensures r <==> exists i :: 0 <= i < |existing| && SameNameIgnoringCase(existing[i].title, name)
  {
    if |existing| == 0 then false
    else SameNameIgnoringCase(existing[0].title, name) || PlaylistExists(name, existing[1..])
  }

  /** The test is insensitive to the case of the name asked about. */
  lemma PlaylistExistsIgnoresCase(name: string, other: string, existing: seq<DestPlaylist>)
    requires SameNameIgnoringCase(name, other)
    ensures PlaylistExists(name, existing) == PlaylistExists(other, existing)
    ensures PlaylistExists(Lower(name), existing) == PlaylistExists(name, existing)
  {

  }

  /** A failed listing never makes the guard skip a playlist. */
  lemma FailedListingNeverSkips(name: string)
    ensures !PlaylistExists(name, ExistingPlaylists(ListingFailed))
  {
  }

  /** The test only looks at titles up to case: "ROAD TRIP" guards "Road Trip". */
  lemma RoadTripIsGuarded()
    ensures PlaylistExists("Road Trip", [DestPlaylist("ROAD TRIP")])
  {
  }
}

=== FILE: orchestrator.dfy ===
/** The script's main loop: enumerate the user's playlists, then for each
    one re-read the destination library, skip it if a playlist of the same
    name (ignoring case) exists, otherwise transfer it; a failed transfer is
    reported and the loop goes on. */
module Orchestrator {
  import opened Wrappers
  import opened Catalog
  import Enumerator
  import DuplicateGuard
  import opened Transfer

  /** The answers the services give while one playlist is processed: the
      fresh destination listing and those of the transfer itself. */
  datatype PlaylistEnv = PlaylistEnv(listing: DuplicateGuard.ListingResponse, services: Services)

  /** What happened to one source playlist. */
  datatype Step = Skipped | Attempted(run: TransferRun)

  function ProcessPlaylist(p: SourcePlaylist, env: PlaylistEnv): (s: Step)
    ensures s.Skipped? <==>
              DuplicateGuard.PlaylistExists(p.name, DuplicateGuard.ExistingPlaylists(env.listing))
    ensures s.Attempted? ==> s.run == TransferPlaylist(p.name, env.services)
  {
    if DuplicateGuard.PlaylistExists(p.name, DuplicateGuard.ExistingPlaylists(env.listing)) then Skipped
    else Attempted(TransferPlaylist(p.name, env.services))
  }

  /** A playlist whose name the fresh listing already holds makes no
      create call; when the listing failed, it is always attempted. */
  lemma SkipMeansNoCreation(p: SourcePlaylist, env: PlaylistEnv, i: nat)
    requires env.listing.Listed? && env.listing.playlists.Some?
    requires i < |env.listing.playlists.value|
    requires Text.SameNameIgnoringCase(env.listing.playlists.value[i].title, p.name)
    ensures ProcessPlaylist(p, env) == Skipped
  {
  }

  lemma FailedListingMeansAttempt(p: SourcePlaylist, env: PlaylistEnv)
    requires env.listing.ListingFailed?
    ensures ProcessPlaylist(p, env).Attempted?
  {
  }

  /** The whole run. `env(i)` holds the answers given while the i-th owned
      playlist is processed. */
  method Run(currentUser: Option<UserId>, listing: Option<seq<SourcePlaylist>>, env: nat -> PlaylistEnv)
    returns (r: Result<seq<Step>, Failure>)
    ensures r.Err? <==> currentUser.None? || listing.None?
    ensures r.Ok? ==> |r.value| == |Enumerator.OwnedPlaylists(currentUser.value, listing.value)|
    ensures r.Ok? ==> forall i :: 0 <= i < |r.value| ==>
              r.value[i] == ProcessPlaylist(Enumerator.OwnedPlaylists(currentUser.value, listing.value)[i], env(i))
  {
    var enumerated := Enumerator.GetOwnedPlaylists(currentUser, listing);
    if enumerated.Err? {
      return Err(enumerated.error);
    }
    var playlists := enumerated.value;
    assert playlists == Enumerator.OwnedPlaylists(currentUser.value, listing.value);
    var steps: seq<Step> := [];
    var i := 0;
    while i < |playlists|
      invariant 0 <= i <= |playlists|
      invariant |steps| == i
      invariant forall j :: 0 <= j < i ==> steps[j] == ProcessPlaylist(playlists[j], env(j))
    {
      var step := ProcessPlaylist(playlists[i], env(i));
      steps := steps + [step];
      i := i + 1;
    }
    return Ok(steps);
  }

  /** The title a step's destination playlist was created under, if the
      step created one (whatever happened to the adds afterwards). */
  function CreatedTitle(s: Step): (t: Option<string>)
    ensures t.Some? ==> s.Attempted? && |s.run.creates| > 0 && t.value == s.run.creates[|s.run.creates| - 1].title
  {
    if s.Attempted? && |s.run.creates| > 0 && s.run.result != Err(CreationFailed) then
      Some(s.run.creates[|s.run.creates| - 1].title)
    else None
  }

  /** A step created a playlist exactly when it was attempted, its tracks
      were collected and resolved, and one of the two create calls
      succeeded. */
  lemma CreatedTitleIff(p: SourcePlaylist, env: PlaylistEnv)
    ensures CreatedTitle(ProcessPlaylist(p, env)).Some? <==>
              && ProcessPlaylist(p, env).Attempted?
              && Pagination.Collect(env.services.pages).Ok?
              && Resolver.Resolve(Pagination.Collect(env.services.pages).value, env.services.search).Ok?
              && (env.services.createFirst.Created? || env.services.createSecond.Created?)
  {
  }

  /** A playlist is created under its own name or, after a failed first
      attempt, under its sanitised name. */
  lemma CreatedUnderNameOrSanitized(p: SourcePlaylist, env: PlaylistEnv)
    requires CreatedTitle(ProcessPlaylist(p, env)).Some?
    ensures CreatedTitle(ProcessPlaylist(p, env)).value in {p.name, Builder.SanitizedName(p.name)}
  {
  }

  /** Every listing after a creation answers and shows the created title:
      the destination behaves consistently within the run. */
  predicate ListingsSeeEarlierCreations(playlists: seq<SourcePlaylist>, env: nat -> PlaylistEnv)
  {
    forall j, i :: 0 <= j < i < |playlists| && CreatedTitle(ProcessPlaylist(playlists[j], env(j))).Some? ==>
      && env(i).listing.Listed?
      && env(i).listing.playlists.Some?
      && DestPlaylist(CreatedTitle(ProcessPlaylist(playlists[j], env(j))).value) in env(i).listing.playlists.value
  }

  /** With a consistent destination, a playlist created under its own name
      guards every later playlist of the same name (ignoring case). */
  lemma RepeatedNameSkipped(playlists: seq<SourcePlaylist>, env: nat -> PlaylistEnv, j: nat, i: nat)
    requires ListingsSeeEarlierCreations(playlists, env)
    requires j < i < |playlists|
    requires CreatedTitle(ProcessPlaylist(playlists[j], env(j))) == Some(playlists[j].name)
    requires Text.SameNameIgnoringCase(playlists[j].name, playlists[i].name)
    ensures ProcessPlaylist(playlists[i], env(i)) == Skipped
  {
    var listed := env(i).listing.playlists.value;
    assert DestPlaylist(playlists[j].name) in listed;
    var k :| 0 <= k < |listed| && listed[k] == DestPlaylist(playlists[j].name);
    assert DuplicateGuard.ExistingPlaylists(env(i).listing)[k].title == playlists[j].name;
  }

  /** The answers in the "Café" run below: no tracks, the first create
      call raises and the retry succeeds. */
  function CafeServices(): Services
  {
    Services([Page([], false)], _ => SearchFailed, CreateFailed, Created("PL"), None)
  }

  /** The "Café" run's tracks: none, collected and resolved. */
  lemma CafeServicesResolved()
    ensures Pagination.Collect(CafeServices().pages) == Ok([])
    ensures Resolver.Resolve([], CafeServices().search).Ok?
  {
    assert Pagination.Collect(CafeServices().pages) == Ok([]);
  }

  lemma CafeSanitizesToCaf()
    ensures Builder.SanitizedName("Café") == "Caf"
  {
    assert Text.AsciiOnly("Café") == "Caf" by {
      assert "Café"[1..] == "afé" && "afé"[1..] == "fé" && "fé"[1..] == "é" && "é"[1..] == [];
    }
    assert !Text.IsBlank("Caf") by { assert !Text.IsSpace("Caf"[0]); }
  }

  lemma CafeTransfer()
    ensures TransferPlaylist("Café", CafeServices()).creates ==
              [Builder.CreateCall("Café", Builder.PlaylistDescription), Builder.CreateCall("Caf", Builder.PlaylistDescription)]
    ensures TransferPlaylist("Café", CafeServices()).result == Ok("PL")
  {
    var svc := CafeServices();
    assert Pagination.Collect(svc.pages) == Ok([]);
    var resolution := Resolver.Resolve([], svc.search).value;
    assert resolution.videoIds == [];
    CafeSanitizesToCaf();
    var creation := Builder.CreatePlaylist("Café", CreateFailed, Created("PL"));
    assert creation.calls == [Builder.CreateCall("Café", Builder.PlaylistDescription), Builder.CreateCall("Caf", Builder.PlaylistDescription)];
    assert creation.result == Ok("PL");
    var adding := Builder.AddBatches(Builder.Batches([]), None);
    assert adding.result.Ok?;
    var run := TransferPlaylist("Café", svc);
    assert run.creates == creation.calls;
    assert run.result.Ok? && run.result.value == creation.result.value;
  }

  /** Processing a "Café" playlist while the listing holds no "café", with
      its tracks collected and resolved: when the first create call raises
      and the retry succeeds, it is created as "Caf". */
  lemma CafeCreatedAsCaf(p: SourcePlaylist, listed: seq<DestPlaylist>, svc: Services)
    requires p.name == "Café"
    requires !DuplicateGuard.PlaylistExists("Café", listed)
    requires Pagination.Collect(svc.pages).Ok?
    requires Resolver.Resolve(Pagination.Collect(svc.pages).value, svc.search).Ok?
    requires svc.createFirst.CreateFailed? && svc.createSecond.Created?
    ensures CreatedTitle(ProcessPlaylist(p, PlaylistEnv(DuplicateGuard.Listed(Some(listed)), svc))) == Some("Caf")
  {
    var env := PlaylistEnv(DuplicateGuard.Listed(Some(listed)), svc);
    assert DuplicateGuard.ExistingPlaylists(env.listing) == listed;
    var run := TransferPlaylist("Café", svc);
    assert ProcessPlaylist(p, env) == Attempted(run);
    CafeSanitizesToCaf();
    var creation := Builder.CreatePlaylist("Café", svc.createFirst, svc.createSecond);
    assert creation.calls == [Builder.CreateCall("Café", Builder.PlaylistDescription), Builder.CreateCall("Caf", Builder.PlaylistDescription)];
    assert creation.result.Ok?;
    assert run.creates == creation.calls;
    assert run.result != Err(CreationFailed);
    assert run.creates[|run.creates| - 1].title == "Caf";
  }

  /** The same playlist keeps its name "Café" when the first create call
      succeeds. */
  lemma CafeKeepsNameWhenFirstCreateSucceeds(p: SourcePlaylist, listed: seq<DestPlaylist>, svc: Services)
    requires p.name == "Café"
    requires !DuplicateGuard.PlaylistExists("Café", listed)
    requires Pagination.Collect(svc.pages).Ok?
    requires Resolver.Resolve(Pagination.Collect(svc.pages).value, svc.search).Ok?
    requires svc.createFirst.Created?
    ensures CreatedTitle(ProcessPlaylist(p, PlaylistEnv(DuplicateGuard.Listed(Some(listed)), svc))) == Some("Café")
  {
    var env := PlaylistEnv(DuplicateGuard.Listed(Some(listed)), svc);
    assert DuplicateGuard.ExistingPlaylists(env.listing) == listed;
    var run := TransferPlaylist("Café", svc);
    assert ProcessPlaylist(p, env) == Attempted(run);
    var creation := Builder.CreatePlaylist("Café", svc.createFirst, svc.createSecond);
    assert creation.calls == [Builder.CreateCall("Café", Builder.PlaylistDescription)];
    assert run.creates == creation.calls;
    assert run.result != Err(CreationFailed);
  }

  /** The guard is by name only: a playlist created under its sanitised
      name does not guard a later playlist of the same original name. Two
      playlists named "Café", each with no tracks, a first create call that
      raises and a retry that succeeds: the first is
      created as "Caf", the next listing shows "Caf", and the second is
      transferred and created as "Caf" again. */
  /** The listing before each "Café" playlist: empty before the first, and
      holding the first one's created "Caf" before the second. */
  function CafeEnv(i: nat): PlaylistEnv
  {
    PlaylistEnv(DuplicateGuard.Listed(Some(if i == 0 then [] else [DestPlaylist("Caf")])), CafeServices())
  }

  /** "Caf" in the library does not guard "Café". */
  lemma CafNotGuardingCafe()
    ensures !DuplicateGuard.PlaylistExists("Café", [DestPlaylist("Caf")])
  {
    assert !Text.SameNameIgnoringCase("Caf", "Café") by {
      assert |Text.Lower("Caf")| != |Text.Lower("Café")|;
    }
  }

  lemma SanitizedCreationNotGuarded()
    ensures var playlists := [SourcePlaylist("1", "Café", "me"), SourcePlaylist("2", "Café", "me")];
            && ListingsSeeEarlierCreations(playlists, CafeEnv)
            && CreatedTitle(ProcessPlaylist(playlists[0], CafeEnv(0))) == Some("Caf")
            && CreatedTitle(ProcessPlaylist(playlists[1], CafeEnv(1))) == Some("Caf")
  {
    var playlists := [SourcePlaylist("1", "Café", "me"), SourcePlaylist("2", "Café", "me")];
    CafNotGuardingCafe();
    CafeServicesResolved();
    assert CafeEnv(0) == PlaylistEnv(DuplicateGuard.Listed(Some([])), CafeServices());
    assert CafeEnv(1) == PlaylistEnv(DuplicateGuard.Listed(Some([DestPlaylist("Caf")])), CafeServices());
    CafeCreatedAsCaf(playlists[0], [], CafeServices());
    CafeCreatedAsCaf(playlists[1], [DestPlaylist("Caf")], CafeServices());
    assert CreatedTitle(ProcessPlaylist(playlists[0], CafeEnv(0))) == Some("Caf");
    forall j, i | 0 <= j < i < |playlists| && CreatedTitle(ProcessPlaylist(playlists[j], CafeEnv(j))).Some?
      ensures && CafeEnv(i).listing.Listed?
              && CafeEnv(i).listing.playlists.Some?
              && DestPlaylist(CreatedTitle(ProcessPlaylist(playlists[j], CafeEnv(j))).value) in CafeEnv(i).listing.playlists.value
    {
      assert j == 0 && i == 1;
    }
  }
}

=== FILE: pagination.dfy ===
/** Collecting a playlist's tracks across pages: the first page from the
    tracks call, then one `next` call per announced page. The service's
    answers are given as `pages`, in call order; a call for which no answer
    is given is a call that raised. */
module Pagination {
  import opened Wrappers
  import opened Catalog
  import Seqs

  function ItemsOf(pages: seq<Page>): seq<seq<TrackItem>>
  {
    seq(|pages|, i requires 0 <= i < |pages| => pages[i].items)
  }

  /** Some answered page announces no successor. */
  predicate HasLastPage(pages: seq<Page>)
  {
    exists k :: 0 <= k < |pages| && !pages[k].hasNext
  }

  /** Index of the first page that announces no successor. */
  function LastPage(pages: seq<Page>): (k: nat)
    requires HasLastPage(pages)
    ensures k < |pages| && !pages[k].hasNext
    ensures forall j :: 0 <= j < k ==> pages[j].hasNext
  {
    if !pages[0].hasNext then 0
    else
      assert HasLastPage(pages[1..]) by {
        var k :| 0 <= k < |pages| && !pages[k].hasNext;
        assert k > 0 && !pages[1..][k - 1].hasNext;
      }
      1 + LastPage(pages[1..])
  }

  /** All items of the pages up to and including the last one, in page order;
      a fetch failure if the answers stop while a next page is announced. */
  function Collect(pages: seq<Page>): (r: Result<seq<TrackItem>, Failure>)
    ensures r.Ok? <==> HasLastPage(pages)
    ensures r.Err? ==> r.error == FetchFailed
    ensures r.Ok? ==> r.value == Seqs.Flatten(ItemsOf(pages[..LastPage(pages) + 1]))
  {
    if |pages| == 0 then Err(FetchFailed)
    else if !pages[0].hasNext then
      assert ItemsOf(pages[..1]) == [pages[0].items];
      Ok(pages[0].items)
    else
      match Collect(pages[1..])
      case Err(e) =>
        Err(e)
      case Ok(rest) =>
        var k := LastPage(pages[1..]);
        assert LastPage(pages) == k + 1;
        assert ItemsOf(pages[..k + 2])[1..] == ItemsOf(pages[1..][..k + 1]);
        Ok(pages[0].items + rest)
  }

  /** The `while results['next']` loop of the script. */
  method FetchAllTracks(pages: seq<Page>) returns (r: Result<seq<TrackItem>, Failure>)
    ensures r == Collect(pages)
  {
    if |pages| == 0 {
      return Err(FetchFailed);
    }
    var results := pages[0];
    var tracks := results.items;
    var fetched := 1;
    assert ItemsOf(pages[..1]) == [pages[0].items];
    while results.hasNext
      invariant 1 <= fetched <= |pages|
      invariant results == pages[fetched - 1]
      invariant forall j :: 0 <= j < fetched - 1 ==> pages[j].hasNext
      invariant tracks == Seqs.Flatten(ItemsOf(pages[..fetched]))
      decreases |pages| - fetched
    {
      if fetched == |pages| {
        return Err(FetchFailed);
      }
      results := pages[fetched];
      assert ItemsOf(pages[..fetched + 1]) == ItemsOf(pages[..fetched]) + [results.items];
      Seqs.FlattenAppend(ItemsOf(pages[..fetched]), results.items);
      tracks := tracks + results.items;
      fetched := fetched + 1;
    }
    return Ok(tracks);
  }

  /** Answers after the last page are never requested. */
  lemma CollectStopsAtLastPage(pages: seq<Page>, extra: seq<Page>)
    requires HasLastPage(pages)
    ensures Collect(pages[..LastPage(pages) + 1] + extra) == Collect(pages)
  {
    var k := LastPage(pages);
    var p := pages[..k + 1] + extra;
    assert forall j :: 0 <= j <= k ==> p[j] == pages[j];
    assert HasLastPage(p) by { assert !p[k].hasNext; }
    assert LastPage(p) == k;
    assert p[..k + 1] == pages[..k + 1];
  }
}

=== FILE: report.dfy ===
/** The unmatched-track report printed after resolving: nothing when every
    track matched, otherwise the count, the first few descriptions and how
    many more were left unshown. */
module Report {
  import opened Wrappers

  /** How many unmatched descriptions are printed. */
  const ShownLimit: nat := 5

  datatype Unmatched = Unmatched(count: nat, shown: seq<string>, more: Option<nat>)

  function Summarize(notFound: seq<string>): (r: Option<Unmatched>)
    ensures r.None? <==> |notFound| == 0
    ensures r.Some? ==> r.value.count == |notFound|
    ensures r.Some? ==> |r.value.shown| == (if |notFound| < ShownLimit then |notFound| else ShownLimit)
    ensures r.Some? ==> r.value.shown == notFound[..|r.value.shown|]
    ensures r.Some? ==> (r.value.more.Some? <==> |notFound| > ShownLimit)
    ensures r.Some? ==> |r.value.shown| + (if r.value.more.Some? then r.value.more.value else 0) == |notFound|
    ensures r.Some? && r.value.more.Some? ==> r.value.more.value > 0
  {
    if |notFound| == 0 then None
    else if |notFound| <= ShownLimit then Some(Unmatched(|notFound|, notFound, None))
    else Some(Unmatched(|notFound|, notFound[..ShownLimit], Some(|notFound| - ShownLimit)))
  }
}

=== FILE: resolver.dfy ===
/** The track resolver: each present track is searched once, by
    "name artist"; the first hit's id is kept, and a track whose search
    came back empty or raised is recorded as unmatched. The search service
    is given as `search`, the answer for the track at each position. */
module Resolver {
  import opened Wrappers
  import opened Catalog

  /** A track the script can describe: absent, or present with an artist. */
  predicate Describable(t: TrackItem)
  {
    t.Absent? || |t.artists| > 0
  }

  predicate WellFormed(tracks: seq<TrackItem>)
  {
    forall i :: 0 <= i < |tracks| ==> Describable(tracks[i])
  }

  /** The search text for a present track: its name and primary artist. */
  function Query(t: TrackItem): (q: string)
    requires t.Present? && |t.artists| > 0
    ensures |q| == |t.name| + 1 + |t.artists[0]|
    ensures q[..|t.name|] == t.name && q[|t.name|] == ' ' && q[|t.name| + 1..] == t.artists[0]
  {
    t.name + " " + t.artists[0]
  }

  /** The line recorded for an unmatched track. */
  function Description(t: TrackItem): (d: string)
    requires t.Present? && |t.artists| > 0
    ensures |d| == |t.name| + 3 + |t.artists[0]|
    ensures d[..|t.name|] == t.name && d[|t.name|..|t.name| + 3] == " - " && d[|t.name| + 3..] == t.artists[0]
  {
    t.name + " - " + t.artists[0]
  }

  /** The id the resolver takes from one search answer, if any: only the
      top-ranked hit, and nothing for an error or an empty hit list. */
  function FirstHit(response: SearchResponse): (r: Option<VideoId>)
    ensures r.Some? <==> response.Hits? && |response.ids| > 0
    ensures r.Some? ==> r.value == response.ids[0]
  {
    match response
    case SearchFailed => None
    case Hits(ids) => if |ids| > 0 then Some(ids[0]) else None
  }

  predicate Found(tracks: seq<TrackItem>, search: nat -> SearchResponse, i: nat)
    requires i < |tracks|
  {
    tracks[i].Present? && FirstHit(search(i)).Some?
  }

  predicate Unmatched(tracks: seq<TrackItem>, search: nat -> SearchResponse, i: nat)
    requires i < |tracks|
  {
    tracks[i].Present? && FirstHit(search(i)).None?
  }

  function CountPresent(tracks: seq<TrackItem>): nat
  {
    if |tracks| == 0 then 0
    else CountPresent(tracks[..|tracks| - 1]) + (if tracks[|tracks| - 1].Present? then 1 else 0)
  }

  /** Reference definitions, built track by track in list order. */
  function VideoIds(tracks: seq<TrackItem>, search: nat -> SearchResponse): seq<VideoId>
  {
    if |tracks| == 0 then []
    else
      var n := |tracks| - 1;
      VideoIds(tracks[..n], search) + (if Found(tracks, search, n) then [FirstHit(search(n)).value] else [])
  }

  function NotFound(tracks: seq<TrackItem>, search: nat -> SearchResponse): seq<string>
    requires WellFormed(tracks)
  {
    if |tracks| == 0 then []
    else
      var n := |tracks| - 1;
      assert WellFormed(tracks[..n]) by {
        assert forall i :: 0 <= i < n ==> tracks[..n][i] == tracks[i];
      }
      assert Describable(tracks[n]);
      NotFound(tracks[..n], search) + (if Unmatched(tracks, search, n) then [Description(tracks[n])] else [])
  }

  function Queries(tracks: seq<TrackItem>): seq<string>
    requires WellFormed(tracks)
  {
    if |tracks| == 0 then []
    else
      var n := |tracks| - 1;
      assert WellFormed(tracks[..n]) by {
        assert forall i :: 0 <= i < n ==> tracks[..n][i] == tracks[i];
      }
      assert Describable(tracks[n]);
      Queries(tracks[..n]) + (if tracks[n].Present? then [Query(tracks[n])] else [])
  }

  /** What the resolver hands on: matched ids and unmatched descriptions,
      both in track order, and the search queries it issued. */
  datatype Resolution = Resolution(videoIds: seq<VideoId>, notFound: seq<string>, queries: seq<string>)

  /** A present track without an artist raises outside the search's error
      handling, so it ends the playlist's transfer. */
  function Resolve(tracks: seq<TrackItem>, search: nat -> SearchResponse): (r: Result<Resolution, Failure>)
    ensures r.Ok? <==> WellFormed(tracks)
    ensures r.Err? ==> r.error == MissingArtist
    ensures r.Ok? ==> |r.value.videoIds| + |r.value.notFound| == CountPresent(tracks) == |r.value.queries|
    ensures r.Ok? ==> |r.value.videoIds| == |FoundPositions(tracks, search)|
    ensures r.Ok? ==> |r.value.notFound| == |UnmatchedPositions(tracks, search)|
    ensures r.Ok? ==> forall k :: 0 <= k < |r.value.videoIds| ==>
              r.value.videoIds[k] == FirstHit(search(FoundPositions(tracks, search)[k])).value
    ensures r.Ok? ==> forall k :: 0 <= k < |r.value.notFound| ==>
              var i := UnmatchedPositions(tracks, search)[k];
              i < |tracks| && tracks[i].Present? && |tracks[i].artists| > 0 &&
              r.value.notFound[k] == Description(tracks[i])
  {
    if WellFormed(tracks) then
      PartitionCount(tracks, search);
      VideoIdsAreTopHits(tracks, search);
      NotFoundDescribesUnmatched(tracks, search);
      Ok(Resolution(VideoIds(tracks, search), NotFound(tracks, search), Queries(tracks)))
    else Err(MissingArtist)
  }

  /** The script's `for` loop over the tracks. */
  method ResolveTracks(tracks: seq<TrackItem>, search: nat -> SearchResponse) returns (r: Result<Resolution, Failure>)
    ensures r.Ok? <==> WellFormed(tracks)
    ensures r.Err? ==> r.error == MissingArtist
    ensures r.Ok? ==> r.value == Resolution(VideoIds(tracks, search), NotFound(tracks, search), Queries(tracks))
  {
    var videoIds: seq<VideoId> := [];
    var notFound: seq<string> := [];
    var queries: seq<string> := [];
    var i := 0;
    while i < |tracks|
      invariant 0 <= i <= |tracks|
      invariant WellFormed(tracks[..i])
      invariant videoIds == VideoIds(tracks[..i], search)
      invariant notFound == NotFound(tracks[..i], search)
      invariant queries == Queries(tracks[..i])
    {
      var track := tracks[i];
      assert tracks[..i + 1][..i] == tracks[..i];
      if track.Absent? {
        i := i + 1;
        continue;
      }
      if |track.artists| == 0 {
        assert !Describable(tracks[i]);
        return Err(MissingArtist);
      }
      queries := queries + [Query(track)];
      var description := Description(track);
      match search(i) {
        case Hits(ids) =>
          if |ids| > 0 {
            videoIds := videoIds + [ids[0]];
          } else {
            notFound := notFound + [description];
          }
        case SearchFailed =>
          notFound := notFound + [description];
      }
      i := i + 1;
    }
    assert tracks[..i] == tracks;
    return Ok(Resolution(videoIds, notFound, queries));
  }

  /** The positions of matched tracks, in increasing order, all of them. */
  function FoundPositions(tracks: seq<TrackItem>, search: nat -> SearchResponse): (r: seq<nat>)
    ensures forall k :: 0 <= k < |r| ==> r[k] < |tracks| && Found(tracks, search, r[k])
    ensures forall k, l :: 0 <= k < l < |r| ==> r[k] < r[l]
    ensures forall i :: 0 <= i < |tracks| && Found(tracks, search, i) ==> i in r
  {
    if |tracks| == 0 then []
    else
      var n := |tracks| - 1;
      assert forall i :: 0 <= i < n ==> tracks[..n][i] == tracks[i];
      FoundPositions(tracks[..n], search) + (if Found(tracks, search, n) then [n] else [])
  }

  /** The positions of unmatched tracks, in increasing order, all of them. */
  function UnmatchedPositions(tracks: seq<TrackItem>, search: nat -> SearchResponse): (r: seq<nat>)
    ensures forall k :: 0 <= k < |r| ==> r[k] < |tracks| && Unmatched(tracks, search, r[k])
    ensures forall k, l :: 0 <= k < l < |r| ==> r[k] < r[l]
    ensures forall i :: 0 <= i < |tracks| && Unmatched(tracks, search, i) ==> i in r
  {
    if |tracks| == 0 then []
    else
      var n := |tracks| - 1;
      assert forall i :: 0 <= i < n ==> tracks[..n][i] == tracks[i];
      UnmatchedPositions(tracks[..n], search) + (if Unmatched(tracks, search, n) then [n] else [])
  }

  /** `video_ids` is, in track order, the top hit of every matched track. */
  lemma {:induction false} VideoIdsAreTopHits(tracks: seq<TrackItem>, search: nat -> SearchResponse)
    ensures |VideoIds(tracks, search)| == |FoundPositions(tracks, search)|
    ensures forall k :: 0 <= k < |VideoIds(tracks, search)| ==>
              VideoIds(tracks, search)[k] == FirstHit(search(FoundPositions(tracks, search)[k])).value
  {
    if |tracks| > 0 {
      var n := |tracks| - 1;
      var prefix := tracks[..n];
      VideoIdsAreTopHits(prefix, search);
      var ids, positions := VideoIds(prefix, search), FoundPositions(prefix, search);
      if Found(tracks, search, n) {
        assert VideoIds(tracks, search) == ids + [FirstHit(search(n)).value];
        assert FoundPositions(tracks, search) == positions + [n];
      } else {
        assert VideoIds(tracks, search) == ids;
        assert FoundPositions(tracks, search) == positions;
      }
    }
  }

  /** `not_found` describes, in track order, every unmatched track. */
  lemma {:induction false} NotFoundDescribesUnmatched(tracks: seq<TrackItem>, search: nat -> SearchResponse)
    requires WellFormed(tracks)
    ensures |NotFound(tracks, search)| == |UnmatchedPositions(tracks, search)|
    ensures forall k :: 0 <= k < |NotFound(tracks, search)| ==>
              var i := UnmatchedPositions(tracks, search)[k];
              i < |tracks| && tracks[i].Present? && |tracks[i].artists| > 0 &&
              NotFound(tracks, search)[k] == Description(tracks[i])
  {
    if |tracks| > 0 {
      var n := |tracks| - 1;
      assert forall i :: 0 <= i < n ==> tracks[..n][i] == tracks[i];
      assert WellFormed(tracks[..n]);
      NotFoundDescribesUnmatched(tracks[..n], search);
    }
  }

  /** Every present track lands in exactly one of the two lists and is
      searched exactly once; absent tracks land in neither and are not
      searched. */
  lemma {:induction false} PartitionCount(tracks: seq<TrackItem>, search: nat -> SearchResponse)
    requires WellFormed(tracks)
    ensures |VideoIds(tracks, search)| + |NotFound(tracks, search)| == CountPresent(tracks)
    ensures |Queries(tracks)| == CountPresent(tracks)
  {
    if |tracks| > 0 {
      var n := |tracks| - 1;
      assert forall i :: 0 <= i < n ==> tracks[..n][i] == tracks[i];
      assert WellFormed(tracks[..n]);
      PartitionCount(tracks[..n], search);
    }
  }

  /** Two search services give the same verdict on every present track. */
  predicate SameVerdicts(tracks: seq<TrackItem>, s1: nat -> SearchResponse, s2: nat -> SearchResponse)
  {
    forall i :: 0 <= i < |tracks| && tracks[i].Present? ==> FirstHit(s1(i)) == FirstHit(s2(i))
  }

  /** The outcome depends only on each present track's top hit: answers at
      absent positions are never looked at, and a search error counts
      exactly as an empty hit list. */
  lemma {:induction false} ResolutionDependsOnlyOnTopHits(tracks: seq<TrackItem>, s1: nat -> SearchResponse, s2: nat -> SearchResponse)
    requires SameVerdicts(tracks, s1, s2)
    ensures Resolve(tracks, s1) == Resolve(tracks, s2)
  {
    if WellFormed(tracks) {
      VideoIdsSameVerdicts(tracks, s1, s2);
      NotFoundSameVerdicts(tracks, s1, s2);
    }
  }

  /** Replacing one search error by an empty hit list changes nothing. */
  lemma SearchErrorCountsAsEmpty(tracks: seq<TrackItem>, search: nat -> SearchResponse, i: nat)
    requires i < |tracks| && search(i) == SearchFailed
    ensures Resolve(tracks, search) == Resolve(tracks, (j: nat) => if j == i then Hits([]) else search(j))
  {
    ResolutionDependsOnlyOnTopHits(tracks, search, (j: nat) => if j == i then Hits([]) else search(j));
  }

  lemma {:induction false} VideoIdsSameVerdicts(tracks: seq<TrackItem>, s1: nat -> SearchResponse, s2: nat -> SearchResponse)
    requires SameVerdicts(tracks, s1, s2)
    ensures VideoIds(tracks, s1) == VideoIds(tracks, s2)
  {
    if |tracks| > 0 {
      var n := |tracks| - 1;
      assert forall i :: 0 <= i < n ==> tracks[..n][i] == tracks[i];
      VideoIdsSameVerdicts(tracks[..n], s1, s2);
    }
  }

  lemma {:induction false} NotFoundSameVerdicts(tracks: seq<TrackItem>, s1: nat -> SearchResponse, s2: nat -> SearchResponse)
    requires WellFormed(tracks)
    requires SameVerdicts(tracks, s1, s2)
    ensures NotFound(tracks, s1) == NotFound(tracks, s2)
  {
    if |tracks| > 0 {
      var n := |tracks| - 1;
      assert forall i :: 0 <= i < n ==> tracks[..n][i] == tracks[i];
      assert WellFormed(tracks[..n]);
      NotFoundSameVerdicts(tracks[..n], s1, s2);
    }
  }
}

=== FILE: seqs.dfy ===
/** Sequence helpers shared by the pagination and batching models. */
module Seqs {

  /** Concatenation of a sequence of sequences, in order. */
  function Flatten<T>(ss: seq<seq<T>>): seq<T>
  {
    if |ss| == 0 then [] else ss[0] + Flatten(ss[1..])
  }

  lemma {:induction false} FlattenAppend<T>(ss: seq<seq<T>>, last: seq<T>)
    ensures Flatten(ss + [last]) == Flatten(ss) + last
  {
    if |ss| == 0 {
      assert ss + [last] == [last];
    } else {
      assert (ss + [last])[1..] == ss[1..] + [last];
      FlattenAppend(ss[1..], last);
    }
  }
}

=== FILE: text.dfy ===
/** Character-level helpers for playlist names: ASCII filtering (the script's
    `encode('ascii', 'ignore')`), the whitespace test behind `strip()`, and
    case folding for the duplicate check. */
module Text {

  predicate IsAscii(c: char)
  {
    c as int < 128
  }

  /** Characters Python's `str.isspace` accepts among the ASCII range:
      tab, line feed, vertical tab, form feed, carriage return, the four
      information separators 0x1C-0x1F, and space. */
  predicate IsSpace(c: char)
  {
    (9 <= c as int <= 13) || (28 <= c as int <= 32)
  }

  /** Every character is whitespace (the empty string included). */
  predicate IsBlank(s: string)
  {
    forall i :: 0 <= i < |s| ==> IsSpace(s[i])
  }

  /** `lstrip()`: the suffix left after dropping leading whitespace. */
  function StripLeft(s: string): (r: string)
    ensures |r| <= |s| && r == s[|s| - |r|..]
    ensures forall i :: 0 <= i < |s| - |r| ==> IsSpace(s[i])
    ensures |r| > 0 ==> !IsSpace(r[0])
  {
    if |s| > 0 && IsSpace(s[0]) then StripLeft(s[1..]) else s
  }

  /** `rstrip()`: the prefix left after dropping trailing whitespace. */
  function StripRight(s: string): (r: string)
    ensures |r| <= |s| && r == s[..|r|]
    ensures forall i :: |r| <= i < |s| ==> IsSpace(s[i])
    ensures |r| > 0 ==> !IsSpace(r[|r| - 1])
  {
    if |s| > 0 && IsSpace(s[|s| - 1]) then StripRight(s[..|s| - 1]) else s
  }

  /** `strip()`: whitespace removed from both ends. It leaves nothing
      exactly for the blank strings, and otherwise starts and ends with a
      non-space character. */
  function Strip(s: string): (r: string)
    ensures r == [] <==> IsBlank(s)
    ensures |r| > 0 ==> !IsSpace(r[0]) && !IsSpace(r[|r| - 1])
  {
    StripRight(StripLeft(s))
  }

  /** The subsequence of ASCII characters of `s`, in order. */
  function AsciiOnly(s: string): (r: string)
    ensures |r| <= |s|
    ensures forall i :: 0 <= i < |r| ==> IsAscii(r[i])
    ensures forall c :: c in r <==> c in s && IsAscii(c)
  {
    if |s| == 0 then []
    else (if IsAscii(s[0]) then [s[0]] else []) + AsciiOnly(s[1..])
  }

  /** Filtering distributes over concatenation, so the kept characters stay
      in their original order. */
  lemma {:induction false} AsciiOnlyConcat(a: string, b: string)
    ensures AsciiOnly(a + b) == AsciiOnly(a) + AsciiOnly(b)
  {
    if |a| == 0 {
      assert a + b == b;
    } else {
      assert (a + b)[0] == a[0];
      assert (a + b)[1..] == a[1..] + b;
      AsciiOnlyConcat(a[1..], b);
    }
  }

  lemma {:induction false} AsciiOnlyKeepsAscii(s: string)
    requires forall i :: 0 <= i < |s| ==> IsAscii(s[i])
    ensures AsciiOnly(s) == s
  {
    if |s| > 0 {
      AsciiOnlyKeepsAscii(s[1..]);
    }
  }

  /** A name with no ASCII character filters to nothing. */
  lemma {:induction false} AsciiOnlyDropsNonAscii(s: string)
    requires forall i :: 0 <= i < |s| ==> !IsAscii(s[i])
    ensures AsciiOnly(s) == []
  {
    if |s| > 0 {
      AsciiOnlyDropsNonAscii(s[1..]);
    }
  }

  /** ASCII case folding of one character. */
  function LowerChar(c: char): char
  {
    if 'A' <= c <= 'Z' then (c as int + 32) as char else c
  }

  function Lower(s: string): string
  {
    seq(|s|, i requires 0 <= i < |s| => LowerChar(s[i]))
  }

  /** Two characters fold together exactly when they are equal or one is the
      upper-case ASCII letter of the other. */
  lemma LowerCharIdentifies(c: char, d: char)
    ensures LowerChar(c) == LowerChar(d) <==>
              || c == d
              || ('A' <= c <= 'Z' && d as int == c as int + 32)
              || ('A' <= d <= 'Z' && c as int == d as int + 32)
  {
  }

  /** A folded name holds no upper-case letter and folds to itself. */
  lemma LowerIsFolded(s: string)
    ensures forall i :: 0 <= i < |Lower(s)| ==> !('A' <= Lower(s)[i] <= 'Z')
    ensures Lower(Lower(s)) == Lower(s)
  {
  }

  /** The duplicate check's notion of "the same name". */
  predicate SameNameIgnoringCase(a: string, b: string)
  {
    Lower(a) == Lower(b)
  }

  /** "The same name ignoring case" is an equivalence, and every name is the
      same as its folded form. */
  lemma SameNameIsEquivalence(a: string, b: string, c: string)
    ensures SameNameIgnoringCase(a, a)
    ensures SameNameIgnoringCase(a, b) ==> SameNameIgnoringCase(b, a)
    ensures SameNameIgnoringCase(a, b) && SameNameIgnoringCase(b, c) ==> SameNameIgnoringCase(a, c)
    ensures SameNameIgnoringCase(Lower(a), a)
  {

  }
}

=== FILE: transfer.dfy ===
/** One playlist's transfer: collect the tracks, resolve them, report the
    unmatched ones, create the destination playlist, add the ids. Each
    service call is replaced by the answer it gives. */
module Transfer {
  import opened Wrappers
  import opened Catalog
  import opened Text
  import Seqs
  import Pagination
  import Resolver
  import Report
  import opened Builder

  /** The answers the two services give during one transfer. */
  datatype Services = Services(
    pages: seq<Page>,                 // track pages, in fetch order
    search: nat -> SearchResponse,    // the search answer for the track at each position
    createFirst: CreateResponse,      // answer to the create call under the original name
    createSecond: CreateResponse,     // answer to the retry under the sanitised name
    addFailsAt: Option<nat>)          // the first add call that raises, if any

  /** What one transfer did on the destination, what it reported, and how
      it ended. */
  datatype TransferRun = TransferRun(
    creates: seq<CreateCall>,
    adds: seq<seq<VideoId>>,
    unmatched: Option<Report.Unmatched>,
    result: Result<PlaylistId, Failure>)

  function TransferPlaylist(name: string, svc: Services): (run: TransferRun)
    // fetching or resolving fails before anything is created
    ensures Pagination.Collect(svc.pages).Err? ==> run == TransferRun([], [], None, Err(FetchFailed))
    ensures Pagination.Collect(svc.pages).Ok? && Resolver.Resolve(Pagination.Collect(svc.pages).value, svc.search).Err? ==>
              run == TransferRun([], [], None, Err(MissingArtist))
    // otherwise: report, create (at most twice), then add batch by batch
    ensures Pagination.Collect(svc.pages).Ok? && Resolver.Resolve(Pagination.Collect(svc.pages).value, svc.search).Ok? ==>
              var resolution := Resolver.Resolve(Pagination.Collect(svc.pages).value, svc.search).value;
              var creation := CreatePlaylist(name, svc.createFirst, svc.createSecond);
              var adding := AddBatches(Batches(resolution.videoIds), svc.addFailsAt);
              && run.unmatched == Report.Summarize(resolution.notFound)
              && run.creates == creation.calls
              && run.adds == (if creation.result.Ok? then adding.calls else [])
              && (creation.result.Err? ==> run.result == Err(CreationFailed))
              && (run.result.Ok? <==> creation.result.Ok? && adding.result.Ok?)
              && (run.result.Ok? ==> run.result.value == creation.result.value)
              && (creation.result.Ok? && adding.result.Err? ==> run.result == Err(AddFailed))
              && (run.result.Ok? ==> Seqs.Flatten(run.adds) == resolution.videoIds)
    ensures |run.creates| <= 2
    ensures |run.creates| == 2 ==> run.creates[1].title == SanitizedName(name) && !IsBlank(run.creates[1].title)
    ensures forall k :: 0 <= k < |run.adds| ==> 1 <= |run.adds[k]| <= BatchLimit
  {
    match Pagination.Collect(svc.pages)
    case Err(e) => TransferRun([], [], None, Err(e))
    case Ok(tracks) =>
      match Resolver.Resolve(tracks, svc.search)
      case Err(e) => TransferRun([], [], None, Err(e))
      case Ok(resolution) =>
        var unmatched := Report.Summarize(resolution.notFound);
        var creation := CreatePlaylist(name, svc.createFirst, svc.createSecond);
        match creation.result
        case Err(e) => TransferRun(creation.calls, [], unmatched, Err(e))
        case Ok(playlistId) =>
          var batches := if |resolution.videoIds| > 0 then Batches(resolution.videoIds) else [];
          var adding := AddBatches(batches, svc.addFailsAt);
          TransferRun(creation.calls, adding.calls, unmatched,
                      if adding.result.Ok? then Ok(playlistId) else Err(adding.result.error))
  }

  /** A transfer succeeds exactly when every step does: the tracks are
      collected and resolved, one of the two create calls succeeds, and no
      add call raises. Then its result is the created playlist and the ids
      added are exactly the matched ones, in order. */
  lemma TransferSucceedsIff(name: string, svc: Services)
    ensures TransferPlaylist(name, svc).result.Ok? <==>
              && Pagination.Collect(svc.pages).Ok?
              && Resolver.Resolve(Pagination.Collect(svc.pages).value, svc.search).Ok?
              && (svc.createFirst.Created? || svc.createSecond.Created?)
              && (svc.addFailsAt.None? ||
                  svc.addFailsAt.value >= |Batches(Resolver.Resolve(Pagination.Collect(svc.pages).value, svc.search).value.videoIds)|)
    ensures TransferPlaylist(name, svc).result.Ok? ==>
              && TransferPlaylist(name, svc).result.value == (if svc.createFirst.Created? then svc.createFirst.id else svc.createSecond.id)
              && Seqs.Flatten(TransferPlaylist(name, svc).adds)
                 == Resolver.Resolve(Pagination.Collect(svc.pages).value, svc.search).value.videoIds
  {
  }

  /** The playlist is created even when no track matched, and then no add
      call is made. */
  lemma EmptyPlaylistStillCreated(name: string, svc: Services)
    requires Pagination.Collect(svc.pages).Ok?
    requires Resolver.Resolve(Pagination.Collect(svc.pages).value, svc.search).Ok?
    requires Resolver.Resolve(Pagination.Collect(svc.pages).value, svc.search).value.videoIds == []
    requires svc.createFirst.Created?
    ensures TransferPlaylist(name, svc).result == Ok(svc.createFirst.id)
    ensures TransferPlaylist(name, svc).adds == []
    ensures TransferPlaylist(name, svc).creates == [CreateCall(name, PlaylistDescription)]
  {
  }

  /** A failing add call ends the transfer as a failure after the batches
      before it were added; nothing is rolled back. */
  lemma AddFailureKeepsEarlierBatches(name: string, svc: Services)
    requires Pagination.Collect(svc.pages).Ok?
    requires Resolver.Resolve(Pagination.Collect(svc.pages).value, svc.search).Ok?
    requires svc.createFirst.Created?
    requires svc.addFailsAt.Some?
    requires svc.addFailsAt.value < |Batches(Resolver.Resolve(Pagination.Collect(svc.pages).value, svc.search).value.videoIds)|
    ensures TransferPlaylist(name, svc).result == Err(AddFailed)
    ensures TransferPlaylist(name, svc).adds ==
              Batches(Resolver.Resolve(Pagination.Collect(svc.pages).value, svc.search).value.videoIds)[..svc.addFailsAt.value + 1]
  {
  }

  /** The answers in the "Road Trip" run below: one page of three tracks,
      the second deleted; the two others are found, and the first create
      call succeeds. */
  function RoadTripServices(): Services
  {
    Services(
      [Page([Present("Holiday", ["Green Day"]), Absent, Present("Drive", ["Incubus"])], false)],
      i => if i == 0 then Hits(["v1", "v9"]) else if i == 2 then Hits(["v2"]) else SearchFailed,
      Created("PL1"), CreateFailed, None)
  }

  /** The "Road Trip" tracks resolve to the two top hits, in order, with
      nothing unmatched. */
  lemma RoadTripResolved()
    ensures Pagination.Collect(RoadTripServices().pages).Ok?
    ensures Resolver.Resolve(Pagination.Collect(RoadTripServices().pages).value, RoadTripServices().search).Ok?
    ensures var resolution := Resolver.Resolve(Pagination.Collect(RoadTripServices().pages).value, RoadTripServices().search).value;
            resolution.videoIds == ["v1", "v2"] && resolution.notFound == []
  {
    var svc := RoadTripServices();
    var tracks := svc.pages[0].items;
    assert Pagination.Collect(svc.pages) == Ok(tracks);
    assert tracks[..2][..1] == tracks[..1];
    assert tracks[..3] == tracks;
    assert Resolver.VideoIds(tracks[..1], svc.search) == ["v1"];
    assert Resolver.VideoIds(tracks[..2], svc.search) == ["v1"];
    assert Resolver.VideoIds(tracks, svc.search) == ["v1", "v2"];
    assert Resolver.NotFound(tracks[..1], svc.search) == [];
    assert Resolver.NotFound(tracks[..2], svc.search) == [];
    assert Resolver.NotFound(tracks, svc.search) == [];
    assert Resolver.Resolve(tracks, svc.search) == Ok(Resolver.Resolution(["v1", "v2"], [], Resolver.Queries(tracks)));
  }

  /** The "Road Trip" transfer: the playlist is created under its own name
      with the two found ids, in one add call, and nothing is reported
      unmatched. */
  lemma RoadTrip()
    ensures var run := TransferPlaylist("Road Trip", RoadTripServices());
            && run.result == Ok("PL1")
            && run.creates == [CreateCall("Road Trip", PlaylistDescription)]
            && run.adds == [["v1", "v2"]]
            && run.unmatched.None?
  {
    RoadTripResolved();
    var ids: seq<VideoId> := ["v1", "v2"];
    assert Batches(ids) == [ids];
    var adding := AddBatches([ids], None);
    assert adding.calls == [ids] && adding.result.Ok?;
    assert Report.Summarize([]).None?;
  }

  /** A name made only of characters the destination rejects: the retry
      goes out under the fallback name and succeeds. */
  lemma UnsupportedName(name: string, svc: Services)
    requires forall i :: 0 <= i < |name| ==> !IsAscii(name[i])
    requires Pagination.Collect(svc.pages).Ok?
    requires Resolver.Resolve(Pagination.Collect(svc.pages).value, svc.search).Ok?
    requires svc.createFirst.CreateFailed? && svc.createSecond.Created?
    requires svc.addFailsAt.None?
    ensures TransferPlaylist(name, svc).creates ==
              [CreateCall(name, PlaylistDescription), CreateCall(FallbackName, PlaylistDescription)]
    ensures TransferPlaylist(name, svc).result == Ok(svc.createSecond.id)
  {
    AsciiOnlyDropsNonAscii(name);
  }
}

=== FILE: wrappers.dfy ===
/** Option and failure-carrying result types; a `Result` stands wherever the
    script lets an exception escape a call (a fetch, a creation, an add)
    instead of catching it. */
module Wrappers {

  datatype Option<+T> = None | Some(value: T)

  datatype Result<+T, +E> = Ok(value: T) | Err(error: E)
}
